=== FILE: README.md ===
# Phoning sign-up: form validation, submit route and spreadsheet mirror

A Dafny model of the volunteer phoning sign-up flow:

- the browser form (`FormulairePhoning`): `updateFormData` merges partial
  updates into the record, `validateForm` checks the fields in a fixed order
  and reports the first failure with its DOM id and French message, and
  `handleSubmit` either stops on a validation failure or posts the record
  and records the outcome;
- the `POST /api/submit` route: a looser server re-check (400), the insert
  into the primary store with its unique-email constraint, the duplicate
  classification (409) versus other store errors (500), the best-effort
  spreadsheet mirror that never decides the reply, and the catch-all 500;
- the spreadsheet mirror (`googleSheets`): `initializeSheetHeaders` writes
  the nine-column header row when row 1 is empty or on a forced refresh,
  and `appendToSheet` skips emails already in column D, otherwise formats
  the availability and experience labels and writes one row at the
  position computed from column A's length.

Modules: `Common` (Option), `JsString` (ECMAScript `trim`, `\s`,
`includes`), `EmailRegex` (the client's email pattern), `PhoningTypes`
(the `PhoningFormData` record), `Formulaire`, `GoogleSheets`,
`PrimaryStore`, `SubmitRoute` and `Scenarios` (cross-module properties).

Modelling choices:

- Strings are `seq<char>`; whitespace is the ECMAScript set (the same set
  for `trim` and for `\s` in a regular expression), listed by code point.
- The regular expression `^[^\s@]+@[^\s@]+\.[^\s@]+$` is stated as an
  existential split (`EmailRegex.MatchesEmailRegex`) and decided by a
  scan that cuts at the first `@` (`EmailRegex.TestEmail`); the two are
  proved equivalent.
- The spreadsheet is a `seq<seq<string>>` read through `Cell`, where a
  missing cell reads as `""`. Column reads follow the Sheets API: rows up
  to the last non-empty one, an empty cell coming back as an empty row.
- The primary store is a table of rows whose emails are unique; the
  route only sees its answer (`Inserted`, `InsertFailed` with code and
  message, or a thrown exception), passed in as a parameter.
- The clock is one opaque `now` string per request.
- Availability and experience codes are the ones in the type
  declaration and the formatters (`1-2h`, `3-5h`, `5h+`; `deja_fait`,
  `jamais_mais_motive`).

## Model

| member | source | states |
|---|---|---|
| JsString.TrimStartSpec | src/components/FormulairePhoning.tsx:39 | `trimStart` removes exactly a whitespace prefix and leaves a string that is empty or starts with non-whitespace |
| JsString.TrimEndSpec | src/components/FormulairePhoning.tsx:39 | `trimEnd` removes exactly a whitespace suffix and leaves a string that is empty or ends with non-whitespace |
| JsString.BlankIffAllWhitespace | src/components/FormulairePhoning.tsx:39-59 | `!s.trim()` holds exactly when every character of `s` is whitespace (the empty string included) |
| JsString.IncludesIffOccurs | src/app/api/submit/route.ts:51 | `includes` is true exactly when the needle occurs at some position of the haystack |
| EmailRegex.IndexOf | src/components/FormulairePhoning.tsx:51 | the result is the first position holding the character, or the length when it is absent |
| EmailRegex.TestEmailMatchesRegex | src/components/FormulairePhoning.tsx:51 | the first-`@` scan accepts exactly the strings the email pattern matches |
| EmailRegex.EmailRejections | src/components/FormulairePhoning.tsx:51-53 | the pattern rejects strings without `@`, with two `@`, with any whitespace, or with an `@` after which no `.` stands strictly inside the rest (neither right after the `@` nor last); an accepted string is never blank |
| EmailRegex.EmailOfRunsAccepted | src/components/FormulairePhoning.tsx:51 | local@host.tld is accepted whenever the three parts are non-empty runs without whitespace or `@` |
| Formulaire.ValidateForm | src/components/FormulairePhoning.tsx:38-67 | a valid verdict carries no field id or message; an invalid one carries both, and the message is non-empty |
| Formulaire.ValidateFormAcceptsExactlyValid | src/components/FormulairePhoning.tsx:38-67 | the form is valid exactly when every field passes its own check (non-blank text, well-formed email, chosen availability and experience) |
| Formulaire.ValidateFormReportsFirstFailure | src/components/FormulairePhoning.tsx:38-67 | an invalid verdict names the first failing field in the order prenom, nom, mobile, email, ville, code postal, availability, experience, with that field's DOM id and message, and every earlier field passes |
| Formulaire.FirstFailingIndex | src/components/FormulairePhoning.tsx:38-67 | the scan returns the position in the check order of the first failing field, all earlier fields passing, or the order's length when none fails |
| Formulaire.FieldDomIdInjective | src/components/FormulairePhoning.tsx:40-64 | distinct fields have distinct DOM ids, so the reported id identifies the field |
| Formulaire.WhitespaceOnlyRejected | src/components/FormulairePhoning.tsx:39-59 | any of the six text fields holding only whitespace (or nothing) fails its rule and makes the form invalid; a whitespace-only prenom is reported on `field-prenom` with the prenom message |
| Formulaire.EmailPresenceBeforeFormat | src/components/FormulairePhoning.tsx:48-53 | with the first three fields valid, a blank email gets the "required" message and a non-blank malformed one the "invalid" message, both on the email field |
| Formulaire.UntrimmedEmailRejected | src/components/FormulairePhoning.tsx:48-53 | the format test runs on the untrimmed email, so a non-blank email with whitespace at any position (an inner space, or a leading no-break space U+00A0 that the email input does not strip) is rejected on the email field with the invalid-format message |
| Formulaire.InitialFormRejectedOnPrenom | src/components/FormulairePhoning.tsx:7-23 | submitting the form as first rendered (all fields empty, no error, not submitting) sends nothing, reports the prenom message and scrolls to `field-prenom` |
| Formulaire.UpdateFormData | src/components/FormulairePhoning.tsx:25-28 | each field takes the update's value when supplied and keeps its old value otherwise; the validation error is cleared; the rest of the state is unchanged |
| Formulaire.UpdateFormDataIdempotent | src/components/FormulairePhoning.tsx:25-28 | applying the same partial update twice gives the same state as applying it once |
| Formulaire.HandleSubmit | src/components/FormulairePhoning.tsx:69-81 | a request is sent exactly when the form validates; otherwise the validation message is shown and the failing field is scrolled to, with no submission started; on send, the submitting flag is set and the error cleared |
| Formulaire.FinishSubmit | src/components/FormulairePhoning.tsx:82-99 | an ok response marks the form submitted; a non-ok response shows the server's error text or the fallback; a thrown fetch shows its message; the submitting flag is always cleared |
| GoogleSheets.ColumnLength | src/lib/googleSheets.ts:39-44 | the number of rows a column read returns: the cell just before it is non-empty and every cell from it on is empty |
| GoogleSheets.SomeRowStartsWithIff | src/lib/googleSheets.ts:44-45 | the `some` over the column's rows is true exactly when some returned row's first value equals the email |
| GoogleSheets.EmailScanIff | src/lib/googleSheets.ts:38-47 | the duplicate scan finds the email exactly when it is non-empty and some row holds it in column D (an empty cell reads back as an empty row, never as `""`) |
| GoogleSheets.FormatDisponibilite | src/lib/googleSheets.ts:53-60 | the label differs from the value exactly for the three availability codes; any other value passes through unchanged |
| GoogleSheets.FormatExperience | src/lib/googleSheets.ts:63-69 | the label differs from the value exactly for the two experience codes; any other value passes through unchanged |
| GoogleSheets.LabelsRoundTrip | src/lib/googleSheets.ts:53-69 | every availability and experience value of the record type is recovered from its label |
| GoogleSheets.FormatDisponibiliteNotInjective | src/lib/googleSheets.ts:53-60 | outside the record type the formatter is not injective: a raw label passes through and collides with the code it labels |
| GoogleSheets.BuildRow | src/lib/googleSheets.ts:72-82 | the row has nine cells, the email in column D, and the date cell is the store's timestamp when non-empty, the clock reading otherwise |
| GoogleSheets.BuildRowRoundTrip | src/lib/googleSheets.ts:72-82 | reading the row back gives the date cell and the submitted record field for field |
| GoogleSheets.HeadersMatchRowLayout | src/lib/googleSheets.ts:72-82 | the header list and a built row both span columns A to I; `Date` heads column A and `Email` heads column D, the column the row puts the email in and the scan reads |
| GoogleSheets.WriteRow | src/lib/googleSheets.ts:93-100 | writing a row sets exactly the given row's cells in columns A to I and leaves every other cell as it was |
| GoogleSheets.NextRow | src/lib/googleSheets.ts:84-90 | the target row is the row just after the last non-empty cell of column A, and row 2 when column A is empty or holds only row 1: every row from the target on has column A empty, and when the target is past row 2 the row before it has column A filled |
| GoogleSheets.AppendToSheet | src/lib/googleSheets.ts:32-103 | a duplicate is reported exactly when the email is non-empty and already in column D, and then the sheet is unchanged; otherwise the built row is written at the next row and no other cell changes |
| GoogleSheets.AppendPreservesHeaderAndDatedRows | src/lib/googleSheets.ts:84-100 | an append never overwrites a cell of the header row or of any row with a date in column A |
| GoogleSheets.AppendNewEmailOnce | src/lib/googleSheets.ts:38-100 | appending an entry whose non-empty email is not yet in column D writes it, leaves exactly one row (the target row) holding it, and a second append with that email is a duplicate that changes nothing |
| GoogleSheets.AppendTwiceSameEmail | src/lib/googleSheets.ts:38-50 | for any non-empty email, the first append writes a row exactly when the email is not yet in column D; afterwards the rows holding it are that one new row, or the rows that already held it; a second append with the same email is always a duplicate that changes nothing |
| GoogleSheets.HeaderRowIsScannedForDuplicates | src/lib/googleSheets.ts:39-45 | the scan reads column D from row 1, so once the headers are in place an email equal to the header text `Email` is reported as a duplicate |
| GoogleSheets.InitializeSheetHeaders | src/lib/googleSheets.ts:105-139 | headers are written exactly when forced or row 1 is empty in A to I; after the call row 1 is not empty; nothing outside row 1 changes |
| GoogleSheets.InitializeSheetHeadersIdempotent | src/lib/googleSheets.ts:124-139 | a second unforced call writes nothing and leaves the sheet as the first call left it; a repeated forced call leaves every cell as the first forced call left it |
| PrimaryStore.Insert | src/app/api/submit/route.ts:31-45 | the insert fails with the unique-violation code exactly when the email is already stored; on success the row is added with the given id and timestamp; email uniqueness is preserved |
| SubmitRoute.ServerValidate | src/app/api/submit/route.ts:16-28 | the record is accepted exactly when prenom, nom, email, mobile, availability and experience are all non-empty; the identity message takes precedence over the choices message |
| SubmitRoute.StoreErrorReply | src/app/api/submit/route.ts:47-62 | a store error gives 409 exactly when its code is 23505 or its message contains `unique` or `duplicate`, 500 otherwise |
| SubmitRoute.SyncMirror | src/app/api/submit/route.ts:64-76 | an unreachable sheet stays unreachable; a reachable one ends with row 1 not empty in columns A to I and, for a non-empty email, the email present in column D |
| SubmitRoute.Post | src/app/api/submit/route.ts:11-86 | the status is one of 200, 400, 409 and 500; 400 exactly when the server check refuses; the insert is attempted exactly when it accepts, with the submitted fields and the request's timestamp; 200 exactly when the insert succeeds, answering the store's id; 409 exactly for the duplicate signals; the mirror is touched only on success |
| SubmitRoute.PostReplyIgnoresMirror | src/app/api/submit/route.ts:64-78 | the reply and the insert attempt are the same whatever the spreadsheet holds or whether it is reachable |
| SubmitRoute.PostMissingIdentity | src/app/api/submit/route.ts:16-21 | a record missing prenom, nom, email or mobile gets 400 with the identity message and no insert |
| SubmitRoute.PostMissingChoices | src/app/api/submit/route.ts:23-28 | with the identity fields present, a missing availability or experience gets 400 with the choices message and no insert |
| SubmitRoute.ServerIgnoresVilleCodePostalAndEmailFormat | src/app/api/submit/route.ts:16-28 | the server verdict does not depend on ville, code postal or the email's format, only on whether the email is empty |
| SubmitRoute.PostStoreErrorClassification | src/app/api/submit/route.ts:47-62 | a store error answers 409 with the duplicate message for a duplicate signal and 500 with the storage message otherwise |
| SubmitRoute.DuplicateSignalExamples | src/app/api/submit/route.ts:51 | code 23505 alone is a duplicate signal, so is a message containing `duplicate`; the match is case-sensitive, so `Unique` with another code is not |
| SubmitRoute.PostSucceedsWithoutMirror | src/app/api/submit/route.ts:64-78 | a successful insert answers 200 with the store's id even when the spreadsheet is unreachable |
| SubmitRoute.PostUnparseableBody | src/app/api/submit/route.ts:79-85 | a body that fails to parse answers the catch-all 500 before any insert |
| SubmitRoute.SyncMirrorIdempotent | src/app/api/submit/route.ts:64-71 | mirroring the same record twice leaves the sheet as mirroring it once |
| SubmitRoute.PostMirrorsAcceptedRecord | src/app/api/submit/route.ts:64-78 | after a successful submission with a reachable sheet, row 1 is not empty and the email is in column D |
| Scenarios.ServerCheckLooserThanClient | src/app/api/submit/route.ts:16-28 | every record the form accepts, the server check accepts too |
| Scenarios.ServerAcceptsWhitespacePrenom | src/app/api/submit/route.ts:16 | the server accepts a whitespace-only prenom that the form rejects |
| Scenarios.ServerAcceptsMalformedEmail | src/app/api/submit/route.ts:16 | every non-empty email the form's pattern rejects (no `@`, a second `@`, whitespace, no inner dot) passes the server, while the form, its first three fields being valid, rejects it on `field-email`: with the invalid-format message, or the required message when it is whitespace only |
| Scenarios.ServerAcceptsEmptyVilleOrCodePostal | src/app/api/submit/route.ts:16-28 | the server accepts a record with empty ville or code postal, which the form rejects on the first of the two |
| Scenarios.WellFormedRecordAccepted | src/components/FormulairePhoning.tsx:38-67 | a record with visible names, mobile, ville and code postal, an email built from valid parts and both choices made passes the form |
| Scenarios.FormSubmissionRoundTrip | src/components/FormulairePhoning.tsx:69-99 | a form that validates is posted as is and never gets 400 from the server; it ends submitted exactly when the store inserts the row, and otherwise shows the server's duplicate, storage or unexpected-error message |
| Scenarios.TwoSubmissionsSameEmail | src/app/api/submit/route.ts:47-56 | against a store with the unique constraint, the first submission of an email answers 200 and a second one with the same email answers 409 |
| Scenarios.AliceMirrorSteps | src/lib/googleSheets.ts:72-139 | on an empty sheet the sample record's mirror writes the headers to row 1 and the row to row 2, with the labels `3-5h/semaine` and `Deja fait` |
| Scenarios.AliceEndToEnd | src/app/api/submit/route.ts:11-78 | the sample record posted to an empty sheet answers 200 with the store's id and leaves the headers and its formatted row in the sheet |

## Left out

- Service-account credentials and client construction (`getAuthClient`, googleSheets.ts lines 8-30): configuration and I/O only.
- Header styling (bold, background, frozen row) through `batchUpdate` after the header write: presentation only, with no effect on cell values.
- `USER_ENTERED` value parsing by the spreadsheet: cells are stored as the strings written.
- Real clocks: each request reads one opaque timestamp string.
- The Supabase client itself: the store's answer is an input to the route; `PrimaryStore.Insert` states the unique-email constraint the duplicate path relies on.
- JSON values of the wrong type or missing keys: a missing key is read as `""`. The route's two 400 checks treat a missing key like `""` (both falsy), but a body without `ville` or `code_postal` is stored with `undefined` and mirrored as a null cell that the spreadsheet leaves untouched rather than as an empty string; that difference in the stored and mirrored values is not modelled.
- SubmitRoute.Post: the route only tests that availability and experience are non-empty, so it would accept, insert and mirror any other non-empty string (say `10h`); the record's fields are typed by the declared unions, so such a body cannot be expressed and this missing membership check is not modelled.
- Formulaire.FinishSubmit: a thrown value that is not an `Error` would show `Une erreur est survenue`; `fetch` and the handler only throw `Error` values, so every throw is modelled as carrying its message and that fallback is not modelled.
- Concurrency: two requests racing on the same email in the sheet (both scans see it absent) are not modelled; each request runs alone.
- A failure part-way through the mirror (after the header write, before the append) is collapsed into "spreadsheet unreachable"; the reply is the same either way.
- `response.json()` throwing in `handleSubmit` on a non-JSON error reply: modelled as the thrown-fetch branch would see it, not as a separate case.
- The browser's own sanitising of the `type="email"` input (it strips leading and trailing ASCII whitespace and line breaks before the value reaches the state): the model validates whatever string the state holds.
- Console logging, JSX rendering, `scrollToField`'s DOM focus, `Confirmation.tsx` and `layout.tsx`: no behaviour the model can state.
- Scenarios.AliceEndToEnd: the form's acceptance of the sample record is not restated on the literal; it follows from `Scenarios.WellFormedRecordAccepted` applied to the record's parts.

=== FILE: common.dfy ===
/** Shared helper types for the sign-up model. */
module Common {

  /** An optional value: `None` stands for an absent key, or for an
      `undefined` value where the code reads it through `||` or `?.`. */
  datatype Option<+T> = None | Some(value: T)
}

=== FILE: email_regex.dfy ===
/** The client-side email format check `^[^\s@]+@[^\s@]+\.[^\s@]+$`
    (src/components/FormulairePhoning.tsx:51), its meaning as a set of
    strings, and a direct test of it. */
module EmailRegex {
  import opened JsString

  /** One character of the class `[^\s@]`. */
  predicate IsEmailChar(c: char)
  {
    !IsWhitespace(c) && c != '@'
  }

  /** `[^\s@]+`: a non-empty run of such characters. */
  predicate IsEmailRun(s: string)
  {
    |s| > 0 && forall i :: 0 <= i < |s| ==> IsEmailChar(s[i])
  }

  /** `s` matches the pattern with its literal `@` at index `at` and its
      literal `.` at index `dot`; the three runs fill the rest exactly,
      since the pattern is anchored at both ends. */
  predicate MatchesAt(s: string, at: int, dot: int)
  {
    && 0 <= at < dot < |s|
    && s[at] == '@' && s[dot] == '.'
    && IsEmailRun(s[..at]) && IsEmailRun(s[at + 1..dot]) && IsEmailRun(s[dot + 1..])
  }

  /** The language of the regular expression: some way to split `s`. */
  ghost predicate MatchesEmailRegex(s: string)
  {
    exists at, dot :: MatchesAt(s, at, dot)
  }

  /** Index of the first `c` in `s`, or `|s|` when there is none. */
  function IndexOf(s: string, c: char): (i: nat)
    ensures i <= |s|
    ensures i < |s| ==> s[i] == c
    ensures forall j :: 0 <= j < i ==> s[j] != c
    decreases |s|
  {
    if |s| == 0 then 0
    else if s[0] == c then 0
    else 1 + IndexOf(s[1..], c)
  }

  /** The domain part has a `.` with at least one character on each side. */
  predicate HasInnerDot(d: string)
  {
    exists k :: 1 <= k < |d| - 1 && d[k] == '.'
  }

  /** `regex.test(s)`: cut at the first `@`; the part before it must be a
      run, and the part after it a run (so no second `@` and no
      whitespace) holding an inner dot. */
  predicate TestEmail(s: string)
  {
    var at := IndexOf(s, '@');
    at < |s| && IsEmailRun(s[..at]) && IsEmailRun(s[at + 1..]) && HasInnerDot(s[at + 1..])
  }

  /** The test accepts exactly the strings of the regular expression's
      language. */
  lemma TestEmailMatchesRegex(s: string)
    ensures TestEmail(s) <==> MatchesEmailRegex(s)
  {
    TestEmailSound(s);
    TestEmailComplete(s);
  }

  /** Cutting a run at an inner position leaves a run on each side. */
  lemma RunSlices(d: string, k: int)
    requires IsEmailRun(d) && 1 <= k < |d| - 1
    ensures IsEmailRun(d[..k]) && IsEmailRun(d[k + 1..])
  {
    forall i | 0 <= i < k
      ensures IsEmailChar(d[..k][i])
    {
      assert d[..k][i] == d[i];
    }
    var e := d[k + 1..];
    forall i | 0 <= i < |e|
      ensures IsEmailChar(e[i])
    {
      assert e[i] == d[k + 1 + i];
    }
  }

  /** Two runs joined by a run character form a run. */
  lemma RunJoin(a: string, c: char, b: string)
    requires IsEmailRun(a) && IsEmailChar(c) && IsEmailRun(b)
    ensures IsEmailRun(a + [c] + b)
  {
    var j := a + [c] + b;
    forall i | 0 <= i < |j|
      ensures IsEmailChar(j[i])
    {
      if i < |a| {
        assert j[i] == a[i];
      } else if i > |a| {
        assert j[i] == b[i - |a| - 1];
      }
    }
  }

  /** A run holds no `@`, so the first `@` after a run is the one right
      after it. */
  lemma IndexOfAfterRun(s: string, at: int)
    requires 0 <= at < |s| && s[at] == '@' && IsEmailRun(s[..at])
    ensures IndexOf(s, '@') == at
  {
    forall j | 0 <= j < at
      ensures s[j] != '@'
    {
      assert s[..at][j] == s[j];
    }
  }

  lemma TestEmailSound(s: string)
    ensures TestEmail(s) ==> MatchesEmailRegex(s)
  {
    if TestEmail(s) {
      var at := IndexOf(s, '@');
      var d := s[at + 1..];
      var k :| 1 <= k < |d| - 1 && d[k] == '.';
      RunSlices(d, k);
      var dot := at + 1 + k;
      assert s[at + 1..dot] == d[..k];
      assert s[dot + 1..] == d[k + 1..];
      assert MatchesAt(s, at, dot);
    }
  }

  lemma TestEmailComplete(s: string)
    ensures MatchesEmailRegex(s) ==> TestEmail(s)
  {
    if MatchesEmailRegex(s) {
      var at, dot :| MatchesAt(s, at, dot);
      IndexOfAfterRun(s, at);
      var d := s[at + 1..];
      assert d == s[at + 1..dot] + [s[dot]] + s[dot + 1..];
      RunJoin(s[at + 1..dot], s[dot], s[dot + 1..]);
      assert d[dot - at - 1] == '.';
    }
  }

  /** The rejections the pattern implies: no `@`, a second `@`, any
      whitespace anywhere (the value is not trimmed first), or no `.` with
      text on both sides after the `@`. And a match is never blank, so
      a string passing the format check also passes the presence check. */
  lemma {:induction false} EmailRejections(s: string)
    ensures (forall i :: 0 <= i < |s| ==> s[i] != '@') ==> !TestEmail(s)
    ensures (exists i, j :: 0 <= i < j < |s| && s[i] == '@' && s[j] == '@') ==> !TestEmail(s)
    ensures (exists i :: 0 <= i < |s| && IsWhitespace(s[i])) ==> !TestEmail(s)
    ensures (exists at :: 0 <= at < |s| && s[at] == '@' && forall k :: at + 1 < k < |s| - 1 ==> s[k] != '.')
            ==> !TestEmail(s)
    ensures TestEmail(s) ==> !IsBlank(s)
  {
    if TestEmail(s) {
      TestEmailMatchesRegex(s);
      var at, dot :| MatchesAt(s, at, dot);
      var at' := IndexOf(s, '@');
      TestEmailComplete(s);
      assert at' == at;
      forall i, j | 0 <= i < j < |s| && s[i] == '@'
        ensures s[j] != '@'
      {
        assert i == at;
        assert s[at + 1..][j - at - 1] == s[j];
      }
      forall a | 0 <= a < |s| && s[a] == '@'
        ensures exists k :: a + 1 < k < |s| - 1 && s[k] == '.'
      {
        assert a == at;
        var d := s[at + 1..];
        var k :| 1 <= k < |d| - 1 && d[k] == '.';
        assert s[at + 1 + k] == '.';
      }
      forall i | 0 <= i < |s|
        ensures !IsWhitespace(s[i])
      {
        if i < at {
          assert s[..at][i] == s[i];
        } else if i > at {
          assert s[at + 1..][i - at - 1] == s[i];
        }
      }
      BlankIffAllWhitespace(s);
    }
  }

  /** Conversely, any `local@host.tld` built from three runs passes. */
  lemma {:induction false} EmailOfRunsAccepted(local: string, host: string, tld: string)
    requires IsEmailRun(local) && IsEmailRun(host) && IsEmailRun(tld)
    ensures TestEmail(local + "@" + host + "." + tld)
  {
    var s := local + "@" + host + "." + tld;
    var at := |local|;
    var dot := |local| + 1 + |host|;
    assert s[..at] == local;
    assert s[at + 1..dot] == host;
    assert s[dot + 1..] == tld;
    assert MatchesAt(s, at, dot);
    TestEmailMatchesRegex(s);
  }
}

=== FILE: formulaire.dfy ===
/** The sign-up form's logic (src/components/FormulairePhoning.tsx):
    the fail-fast validator, the state update on each edit, and the
    submit handler. Rendering, scrolling and focusing are not modelled;
    the handler reports which element it would scroll to. */
module Formulaire {
  import opened Common
  import opened JsString
  import opened EmailRegex
  import opened PhoningTypes

  /** The order in which `validateForm` examines the fields. */
  const CheckOrder: seq<Field> :=
    [Prenom, Nom, Mobile, Email, Ville, CodePostal, Disponibilite, Experience]

  /** The DOM id of each field's input element. */
  function FieldDomId(f: Field): string
  {
    match f
    case Prenom => "field-prenom"
    case Nom => "field-nom"
    case Mobile => "field-mobile"
    case Email => "field-email"
    case Ville => "field-ville"
    case CodePostal => "field-code_postal"
    case Disponibilite => "field-disponibilite"
    case Experience => "field-experience"
  }

  /** The rule the validator applies to one field: a text field must be
      non-blank after trimming, and the email must also match the pattern
      (untrimmed); the two choice fields must be non-empty. */
  predicate FieldOk(d: PhoningFormData, f: Field)
  {
    if IsTextField(f) then
      !IsBlank(FieldValue(d, f)) && (f == Email ==> TestEmail(d.email))
    else
      FieldValue(d, f) != ""
  }

  /** The result object `{ valid, fieldId?, message? }`. */
  datatype Validation = Validation(valid: bool, fieldId: Option<string>, message: Option<string>)

  const EmailRequiredMessage := "L'email est obligatoire"
  const EmailInvalidMessage := "L'email n'est pas valide"

  /** The message shown for a field that fails its rule; the email has
      one for a blank value and one for a malformed value. */
  function FieldMessage(d: PhoningFormData, f: Field): string
  {
    match f
    case Prenom => "Le prenom est obligatoire"
    case Nom => "Le nom est obligatoire"
    case Mobile => "Le numero de mobile est obligatoire"
    case Email => if IsBlank(d.email) then EmailRequiredMessage else EmailInvalidMessage
    case Ville => "La ville est obligatoire"
    case CodePostal => "Le code postal est obligatoire"
    case Disponibilite => "Veuillez indiquer votre disponibilite"
    case Experience => "Veuillez indiquer votre experience"
  }

  function Reject(f: Field, message: string): Validation
  {
    Validation(false, Some(FieldDomId(f)), Some(message))
  }

  /** Field `CheckOrder[k]` fails its rule and every field before it
      passes. */
  predicate FirstFailure(d: PhoningFormData, k: int)
  {
    && 0 <= k < |CheckOrder|
    && !FieldOk(d, CheckOrder[k])
    && forall j :: 0 <= j < k ==> FieldOk(d, CheckOrder[j])
  }

  /** `validateForm`: a valid result carries neither an id nor a message;
      an invalid one carries both, and the message is never empty. */
  function ValidateForm(d: PhoningFormData): (r: Validation)
    ensures r.valid ==> r.fieldId.None? && r.message.None?
    ensures !r.valid ==> r.fieldId.Some? && r.message.Some? && r.message.value != ""
  {
    if IsBlank(d.prenom) then Reject(Prenom, FieldMessage(d, Prenom))
    else if IsBlank(d.nom) then Reject(Nom, FieldMessage(d, Nom))
    else if IsBlank(d.mobile) then Reject(Mobile, FieldMessage(d, Mobile))
    else if IsBlank(d.email) then Reject(Email, EmailRequiredMessage)
    else if !TestEmail(d.email) then Reject(Email, EmailInvalidMessage)
    else if IsBlank(d.ville) then Reject(Ville, FieldMessage(d, Ville))
    else if IsBlank(d.codePostal) then Reject(CodePostal, FieldMessage(d, CodePostal))
    else if d.disponibilite == "" then Reject(Disponibilite, FieldMessage(d, Disponibilite))
    else if d.experience == "" then Reject(Experience, FieldMessage(d, Experience))
    else Validation(true, None, None)
  }

  /** The validator accepts exactly the records whose every field passes
      its rule. */
  lemma {:induction false} ValidateFormAcceptsExactlyValid(d: PhoningFormData)
    ensures ValidateForm(d).valid <==> forall f :: FieldOk(d, f)
  {
    if ValidateForm(d).valid {
      forall f
        ensures FieldOk(d, f)
      {
      }
    } else {
      ValidateFormReportsFirstFailure(d);
    }
  }

  /** When the validator rejects, the field it names is the FIRST failing
      one in `CheckOrder`, with that field's message: when several fields
      are invalid, the earliest wins. */
  lemma {:induction false} ValidateFormReportsFirstFailure(d: PhoningFormData)
    ensures !ValidateForm(d).valid ==>
      exists k :: FirstFailure(d, k) && ValidateForm(d) == Reject(CheckOrder[k], FieldMessage(d, CheckOrder[k]))
  {
    var k := FirstFailingIndex(d);
    if k < |CheckOrder| {
      FirstFailingIndexReported(d);
    }
  }

  /** The position in `CheckOrder` of the first failing field, or
      `|CheckOrder|` when none fails. */
  function FirstFailingIndex(d: PhoningFormData): (k: nat)
    ensures k <= |CheckOrder|
    ensures k < |CheckOrder| ==> FirstFailure(d, k)
    ensures k == |CheckOrder| ==> forall j :: 0 <= j < |CheckOrder| ==> FieldOk(d, CheckOrder[j])
  {
    FirstFailingFrom(d, 0)
  }

  function FirstFailingFrom(d: PhoningFormData, i: nat): (k: nat)
    requires i <= |CheckOrder|
    requires forall j :: 0 <= j < i ==> FieldOk(d, CheckOrder[j])
    ensures i <= k <= |CheckOrder|
    ensures k < |CheckOrder| ==> FirstFailure(d, k)
    ensures k == |CheckOrder| ==> forall j :: 0 <= j < |CheckOrder| ==> FieldOk(d, CheckOrder[j])
    decreases |CheckOrder| - i
  {
    if i == |CheckOrder| then i
    else if !FieldOk(d, CheckOrder[i]) then i
    else FirstFailingFrom(d, i + 1)
  }

  lemma FirstFailingIndexReported(d: PhoningFormData)
    requires FirstFailingIndex(d) < |CheckOrder|
    ensures ValidateForm(d) == Reject(CheckOrder[FirstFailingIndex(d)], FieldMessage(d, CheckOrder[FirstFailingIndex(d)]))
  {
    var k := FirstFailingIndex(d);
    assert FirstFailure(d, k);
    assert CheckOrder[0] == Prenom && CheckOrder[1] == Nom && CheckOrder[2] == Mobile;
    assert CheckOrder[3] == Email && CheckOrder[4] == Ville && CheckOrder[5] == CodePostal;
    assert CheckOrder[6] == Disponibilite && CheckOrder[7] == Experience;
    if k == 0 {
    } else if k == 1 {
      assert FieldOk(d, CheckOrder[0]);
    } else if k == 2 {
      assert FieldOk(d, CheckOrder[0]) && FieldOk(d, CheckOrder[1]);
    } else if k == 3 {
      assert FieldOk(d, CheckOrder[0]) && FieldOk(d, CheckOrder[1]) && FieldOk(d, CheckOrder[2]);
    } else {
      assert FieldOk(d, CheckOrder[0]) && FieldOk(d, CheckOrder[1]) && FieldOk(d, CheckOrder[2]);
      assert FieldOk(d, CheckOrder[3]);
      if k == 4 {
      } else if k == 5 {
        assert FieldOk(d, CheckOrder[4]);
      } else if k == 6 {
        assert FieldOk(d, CheckOrder[4]) && FieldOk(d, CheckOrder[5]);
      } else {
        assert FieldOk(d, CheckOrder[4]) && FieldOk(d, CheckOrder[5]) && FieldOk(d, CheckOrder[6]);
      }
    }
  }

  /** Distinct fields have distinct element ids, so the reported id names
      exactly one field. */
  lemma FieldDomIdInjective(f: Field, g: Field)
    ensures FieldDomId(f) == FieldDomId(g) ==> f == g
  {
  }

  /** A text field holding only whitespace (or nothing) makes the form
      invalid, because the check trims before testing; a whitespace-only
      prenom is reported on the prenom field. */
  lemma {:induction false} WhitespaceOnlyRejected(d: PhoningFormData, f: Field)
    requires IsTextField(f)
    requires AllWhitespace(FieldValue(d, f))
    ensures !ValidateForm(d).valid
    ensures !FieldOk(d, f)
    ensures f == Prenom ==> ValidateForm(d) == Reject(Prenom, "Le prenom est obligatoire")
  {
    BlankIffAllWhitespace(FieldValue(d, f));
  }

  /** The email is checked for presence before format; both failures
      name `field-email`, with different messages. */
  lemma EmailPresenceBeforeFormat(d: PhoningFormData)
    requires FieldOk(d, Prenom) && FieldOk(d, Nom) && FieldOk(d, Mobile)
    ensures IsBlank(d.email) ==>
      ValidateForm(d) == Validation(false, Some("field-email"), Some(EmailRequiredMessage))
    ensures !IsBlank(d.email) && !TestEmail(d.email) ==>
      ValidateForm(d) == Validation(false, Some("field-email"), Some(EmailInvalidMessage))
    ensures EmailRequiredMessage != EmailInvalidMessage
  {
  }

  /** Unlike the presence check, the pattern sees the untrimmed value: an
      email that is present but carries whitespace anywhere (an inner
      space, say) fails the format check. */
  lemma {:induction false} UntrimmedEmailRejected(d: PhoningFormData, i: int)
    requires FieldOk(d, Prenom) && FieldOk(d, Nom) && FieldOk(d, Mobile)
    requires !IsBlank(d.email)
    requires 0 <= i < |d.email| && IsWhitespace(d.email[i])
    ensures ValidateForm(d) == Validation(false, Some("field-email"), Some(EmailInvalidMessage))
  {
    EmailRejections(d.email);
  }

  /** A partial update `Partial<PhoningFormData>`: `None` means the key is
      absent from the update object. */
  datatype FormUpdate = FormUpdate(
    prenom: Option<string>,
    nom: Option<string>,
    mobile: Option<string>,
    email: Option<string>,
    ville: Option<string>,
    codePostal: Option<string>,
    disponibilite: Option<DisponibiliteCode>,
    experience: Option<ExperienceCode>)

  /** The value an update supplies for field `f`, if any. */
  function Supplied(u: FormUpdate, f: Field): Option<string>
  {
    match f
    case Prenom => u.prenom
    case Nom => u.nom
    case Mobile => u.mobile
    case Email => u.email
    case Ville => u.ville
    case CodePostal => u.codePostal
    case Disponibilite => if u.disponibilite.Some? then Some(u.disponibilite.value) else None
    case Experience => if u.experience.Some? then Some(u.experience.value) else None
  }

  /** The component's state hooks. */
  datatype FormState = FormState(
    formData: PhoningFormData,
    isSubmitting: bool,
    isSubmitted: bool,
    error: Option<string>,
    validationError: Option<string>)

  const InitialState := FormState(InitialFormData, false, false, None, None)

  /** The form as first rendered: every field empty, nothing submitted,
      no error. Submitting it straight away sends nothing and reports the
      prenom, the first field checked. */
  lemma InitialFormRejectedOnPrenom()
    ensures ValidateForm(InitialState.formData) == Reject(Prenom, "Le prenom est obligatoire")
    ensures var step := HandleSubmit(InitialState);
      && step.request.None?
      && step.scrollTo == Some("field-prenom")
      && step.state.validationError == Some("Le prenom est obligatoire")
      && !step.state.isSubmitting && !step.state.isSubmitted
  {
    assert IsBlank("");
  }

  function Pick<T>(update: Option<T>, previous: T): T
  {
    if update.Some? then update.value else previous
  }

  /** `updateFormData`: `{ ...prev, ...updates }` followed by clearing the
      validation error. Supplied fields take the new value, every other
      field and every other piece of state is unchanged. */
  function UpdateFormData(s: FormState, u: FormUpdate): (s': FormState)
    ensures forall f :: FieldValue(s'.formData, f) == Pick(Supplied(u, f), FieldValue(s.formData, f))
    ensures s'.validationError == None
    ensures s'.isSubmitting == s.isSubmitting && s'.isSubmitted == s.isSubmitted && s'.error == s.error
  {
    var p := s.formData;
    var d := PhoningFormData(
      Pick(u.prenom, p.prenom), Pick(u.nom, p.nom), Pick(u.mobile, p.mobile),
      Pick(u.email, p.email), Pick(u.ville, p.ville), Pick(u.codePostal, p.codePostal),
      Pick(u.disponibilite, p.disponibilite), Pick(u.experience, p.experience));
    s.(formData := d, validationError := None)
  }

  /** Two records that agree on every field are the same record. */
  lemma SameFieldsSameRecord(d: PhoningFormData, e: PhoningFormData)
    requires forall f :: FieldValue(d, f) == FieldValue(e, f)
    ensures d == e
  {
    assert FieldValue(d, Prenom) == FieldValue(e, Prenom);
    assert FieldValue(d, Nom) == FieldValue(e, Nom);
    assert FieldValue(d, Mobile) == FieldValue(e, Mobile);
    assert FieldValue(d, Email) == FieldValue(e, Email);
    assert FieldValue(d, Ville) == FieldValue(e, Ville);
    assert FieldValue(d, CodePostal) == FieldValue(e, CodePostal);
    assert FieldValue(d, Disponibilite) == FieldValue(e, Disponibilite);
    assert FieldValue(d, Experience) == FieldValue(e, Experience);
  }

  /** Applying the same update twice is the same as applying it once,
      and an update that supplies nothing leaves the record as it was. */
  lemma UpdateFormDataIdempotent(s: FormState, u: FormUpdate)
    ensures UpdateFormData(UpdateFormData(s, u), u) == UpdateFormData(s, u)
    ensures u == FormUpdate(None, None, None, None, None, None, None, None) ==>
      UpdateFormData(s, u).formData == s.formData
  {
    var once := UpdateFormData(s, u);
    var twice := UpdateFormData(once, u);
    forall f
      ensures FieldValue(twice.formData, f) == FieldValue(once.formData, f)
    {
    }
    SameFieldsSameRecord(twice.formData, once.formData);
    if u == FormUpdate(None, None, None, None, None, None, None, None) {
      SameFieldsSameRecord(once.formData, s.formData);
    }
  }

  const DefaultValidationMessage := "Veuillez remplir tous les champs obligatoires"

  /** What one press of the submit button does before awaiting the
      network: the new state, the element it scrolls to, and the body of
      the POST request it sends, if any. */
  datatype SubmitStep = SubmitStep(
    state: FormState,
    scrollTo: Option<string>,
    request: Option<PhoningFormData>)

  /** The synchronous part of `handleSubmit`. On an invalid form it shows
      the validator's message, scrolls to the failing field and returns
      before any request; on a valid form it sends the form data as is. */
  function HandleSubmit(s: FormState): (step: SubmitStep)
    ensures step.request.Some? <==> ValidateForm(s.formData).valid
    ensures step.request.Some? ==>
      && step.request.value == s.formData
      && step.state == s.(isSubmitting := true, error := None)
      && step.scrollTo.None?
    ensures step.request.None? ==>
      && step.state == s.(validationError := ValidateForm(s.formData).message)
      && step.scrollTo == ValidateForm(s.formData).fieldId
      && step.scrollTo.Some?
  {
    var v := ValidateForm(s.formData);
    if !v.valid then
      var shown := if v.message.Some? && v.message.value != "" then v.message.value else DefaultValidationMessage;
      SubmitStep(s.(validationError := Some(shown)), v.fieldId, None)
    else
      SubmitStep(s.(isSubmitting := true, error := None), None, Some(s.formData))
  }

  /** How the awaited `fetch` ended: an HTTP answer, with the `error`
      string of its JSON body when there is one, or a thrown error. */
  datatype FetchResult = Answered(status: int, errorText: Option<string>) | Thrown(message: string)

  const DefaultSubmitError := "Erreur lors de la soumission"

  /** The asynchronous rest of `handleSubmit`: a 2xx answer marks the form
      submitted; any other answer shows the server's error text (or a
      default); a thrown error shows its message; the submitting flag is
      always cleared. */
  function FinishSubmit(s: FormState, result: FetchResult): (s': FormState)
    ensures !s'.isSubmitting
    ensures s'.formData == s.formData && s'.validationError == s.validationError
    ensures s'.isSubmitted <==> s.isSubmitted || (result.Answered? && 200 <= result.status < 300)
    ensures result.Answered? && 200 <= result.status < 300 ==> s'.error == s.error
    ensures result.Answered? && !(200 <= result.status < 300) ==>
      s'.error == Some(if result.errorText.Some? && result.errorText.value != ""
                       then result.errorText.value else DefaultSubmitError)
    ensures result.Thrown? ==> s'.error == Some(result.message)
  {
    match result
    case Answered(status, errorText) =>
      if 200 <= status < 300 then s.(isSubmitted := true, isSubmitting := false)
      else
        var text := if errorText.Some? && errorText.value != "" then errorText.value else DefaultSubmitError;
        s.(error := Some(text), isSubmitting := false)
    case Thrown(message) => s.(error := Some(message), isSubmitting := false)
  }
}

=== FILE: google_sheets.dfy ===
/** The spreadsheet mirror (src/lib/googleSheets.ts): the email-column
    duplicate scan, the label formatters, row construction, next-row
    computation, and header initialisation. The spreadsheet is a plain
    value; each Sheets API read or write becomes a function on it. */
module GoogleSheets {
  import opened Common
  import opened PhoningTypes

  type Row = seq<string>

  /** `sheet[r]` is spreadsheet row `r + 1` and `sheet[r][c]` its column
      `c` (A = 0, D = 3, I = 8). Rows may be ragged: a missing cell and a
      cell holding `""` are both an empty cell. */
  type Sheet = seq<Row>

  const ColumnA: nat := 0
  const ColumnD: nat := 3
  /** Columns A to I. */
  const RowWidth: nat := 9

  /** The content of a cell, `""` when empty or outside the grid. */
  function Cell(s: Sheet, r: nat, c: nat): string
  {
    if r < |s| && c < |s[r]| then s[r][c] else ""
  }

  /** The number of rows `values.get` returns for a whole column (`A:A`,
      `D:D`): trailing empty rows are omitted, so this is the row number
      of the last non-empty cell of the column, or 0. */
  function ColumnLength(s: Sheet, c: nat): (n: nat)
    ensures n <= |s|
    ensures forall r: nat :: n <= r ==> Cell(s, r, c) == ""
    ensures n > 0 ==> Cell(s, n - 1, c) != ""
    decreases |s|
  {
    if |s| == 0 then 0
    else if Cell(s, |s| - 1, c) != "" then |s|
    else
      var n := ColumnLength(s[..|s| - 1], c);
      assert forall r: nat :: r < |s| - 1 ==> Cell(s[..|s| - 1], r, c) == Cell(s, r, c);
      n
  }

  /** `values.get` on a whole column: one entry per row up to the last
      non-empty cell, `[]` for an empty cell, `[v]` for a cell holding `v`. */
  function ReadColumn(s: Sheet, c: nat): seq<Row>
  {
    seq(ColumnLength(s, c), r requires 0 <= r < ColumnLength(s, c) =>
      if Cell(s, r, c) == "" then [] else [Cell(s, r, c)])
  }

  /** `rows.some(row => row[0] === v)`; on an empty row `row[0]` is
      `undefined`, which equals no string. */
  predicate SomeRowStartsWith(rows: seq<Row>, v: string)
    decreases |rows|
  {
    |rows| > 0 && ((|rows[0]| > 0 && rows[0][0] == v) || SomeRowStartsWith(rows[1..], v))
  }

  lemma {:induction false} SomeRowStartsWithIff(rows: seq<Row>, v: string)
    ensures SomeRowStartsWith(rows, v) <==> exists i :: 0 <= i < |rows| && |rows[i]| > 0 && rows[i][0] == v
    decreases |rows|
  {
    if |rows| > 0 {
      SomeRowStartsWithIff(rows[1..], v);
      if SomeRowStartsWith(rows[1..], v) {
        var i :| 0 <= i < |rows[1..]| && |rows[1..][i]| > 0 && rows[1..][i][0] == v;
        assert rows[i + 1] == rows[1..][i];
      }
      forall i | 1 <= i < |rows| && |rows[i]| > 0 && rows[i][0] == v
        ensures SomeRowStartsWith(rows[1..], v)
      {
        assert rows[1..][i - 1] == rows[i];
      }
    }
  }

  /** Some row of the sheet holds `v` in column `c`. */
  predicate InColumn(s: Sheet, c: nat, v: string)
  {
    exists r :: 0 <= r < |s| && Cell(s, r, c) == v
  }

  /** The duplicate test of `appendToSheet`: the email is already in
      column D. An empty email is never found, since empty cells come
      back as `[]`. */
  predicate EmailInSheet(s: Sheet, email: string)
  {
    SomeRowStartsWith(ReadColumn(s, ColumnD), email)
  }

  /** The scan of column D finds the email exactly when some row holds it
      in column D; the empty string is never found. */
  lemma {:induction false} EmailScanIff(s: Sheet, email: string)
    ensures EmailInSheet(s, email) <==> email != "" && InColumn(s, ColumnD, email)
  {
    var rows := ReadColumn(s, ColumnD);
    SomeRowStartsWithIff(rows, email);
    if EmailInSheet(s, email) {
      var i :| 0 <= i < |rows| && |rows[i]| > 0 && rows[i][0] == email;
      assert Cell(s, i, ColumnD) == email;
    }
    if email != "" && InColumn(s, ColumnD, email) {
      var r :| 0 <= r < |s| && Cell(s, r, ColumnD) == email;
      assert r < |rows|;
      assert rows[r] == [email];
    }
  }

  /** `formatDisponibilite`: the three availability codes get their
      display labels; any other value, `''` included, is kept as is. */
  function FormatDisponibilite(value: string): (shown: string)
    ensures shown == value <==> value != "1-2h" && value != "3-5h" && value != "5h+"
  {
    match value
    case "1-2h" => "1-2h/semaine"
    case "3-5h" => "3-5h/semaine"
    case "5h+" => "5h et +"
    case _ => value
  }

  /** `formatExperience`: the two experience codes get their display
      labels; any other value, `''` included, is kept as is. */
  function FormatExperience(value: string): (shown: string)
    ensures shown == value <==> value != "deja_fait" && value != "jamais_mais_motive"
  {
    match value
    case "deja_fait" => "Deja fait"
    case "jamais_mais_motive" => "Jamais fait mais motive"
    case _ => value
  }

  /** Reads an availability label back into its code. */
  function ParseDisponibilite(text: string): Option<DisponibiliteCode>
  {
    match text
    case "1-2h/semaine" => Some("1-2h")
    case "3-5h/semaine" => Some("3-5h")
    case "5h et +" => Some("5h+")
    case "" => Some("")
    case _ => None
  }

  /** Reads an experience label back into its code. */
  function ParseExperience(text: string): Option<ExperienceCode>
  {
    match text
    case "Deja fait" => Some("deja_fait")
    case "Jamais fait mais motive" => Some("jamais_mais_motive")
    case "" => Some("")
    case _ => None
  }

  /** On the values the record type allows, the labels lose nothing: each
      code is recovered from its label, so distinct codes get distinct
      labels. */
  lemma LabelsRoundTrip(d: DisponibiliteCode, x: ExperienceCode)
    ensures ParseDisponibilite(FormatDisponibilite(d)) == Some(d)
    ensures ParseExperience(FormatExperience(x)) == Some(x)
  {
  }

  /** Outside the record type the availability formatter is not
      injective: a value that already is a label collides with its code. */
  lemma FormatDisponibiliteNotInjective()
    ensures FormatDisponibilite("1-2h") == FormatDisponibilite("1-2h/semaine")
  {
  }

  /** The argument of `appendToSheet`: the record plus the optional `id`
      and `created_at` the store assigned. */
  datatype MirrorEntry = MirrorEntry(data: PhoningFormData, id: Option<string>, createdAt: Option<string>)

  /** `data.created_at || now`: an absent or empty timestamp falls back to
      the current time, passed in as an opaque string. */
  function DateCell(e: MirrorEntry, now: string): string
  {
    if e.createdAt.Some? && e.createdAt.value != "" then e.createdAt.value else now
  }

  /** The nine cells written for one entry, in column order A to I. */
  function BuildRow(e: MirrorEntry, now: string): (row: Row)
    ensures |row| == RowWidth
    ensures row[ColumnD] == e.data.email
    ensures e.createdAt.Some? && e.createdAt.value != "" ==> row[ColumnA] == e.createdAt.value
    ensures !(e.createdAt.Some? && e.createdAt.value != "") ==> row[ColumnA] == now
  {
    var d := e.data;
    [DateCell(e, now), d.prenom, d.nom, d.email, d.mobile, d.ville, d.codePostal,
     FormatDisponibilite(d.disponibilite), FormatExperience(d.experience)]
  }

  /** What a reader of the mirror recovers from a nine-cell row: the date
      and the record, or `None` when a label is not one of the known ones. */
  datatype MirrorRow = MirrorRow(date: string, data: PhoningFormData)

  function ParseRow(row: Row): Option<MirrorRow>
    requires |row| == RowWidth
  {
    var disponibilite := ParseDisponibilite(row[7]);
    var experience := ParseExperience(row[8]);
    if disponibilite.None? || experience.None? then None
    else Some(MirrorRow(row[0], PhoningFormData(row[1], row[2], row[4], row[3], row[5], row[6],
                                                disponibilite.value, experience.value)))
  }

  /** The mirrored row holds the whole record: reading it back yields the
      date cell and exactly the record that was appended. */
  lemma BuildRowRoundTrip(e: MirrorEntry, now: string)
    ensures ParseRow(BuildRow(e, now)) == Some(MirrorRow(DateCell(e, now), e.data))
  {
    LabelsRoundTrip(e.data.disponibilite, e.data.experience);
  }

  /** The header row written by `initializeSheetHeaders`. */
  const Headers: Row :=
    ["Date", "Prenom", "Nom", "Email", "Mobile", "Ville", "Code postal", "Disponibilite", "Experience"]

  /** The header list spans columns A to I and its email title sits in
      column D, the column scanned for duplicates and the one `BuildRow`
      puts the email in. */
  lemma HeadersMatchRowLayout(e: MirrorEntry, now: string)
    ensures |Headers| == RowWidth == |BuildRow(e, now)|
    ensures Headers[ColumnA] == "Date" && Headers[ColumnD] == "Email"
    ensures BuildRow(e, now)[ColumnD] == e.data.email
  {
  }

  /** `values.update` on range `A{r+1}:I{r+1}` with one row of values: the
      cells of row `r` in the written columns take the new values, every
      other cell keeps its content. */
  function WriteRow(s: Sheet, r: nat, cells: Row): (s': Sheet)
    ensures |s'| == if r < |s| then |s| else r + 1
    ensures forall r': nat, c: nat :: Cell(s', r', c) == if r' == r && c < |cells| then cells[c] else Cell(s, r', c)
  {
    var padded := if r < |s| then s else s + seq(r + 1 - |s|, _ => []);
    assert forall r': nat, c: nat :: Cell(padded, r', c) == Cell(s, r', c);
    var old_ := padded[r];
    var row := cells + (if |old_| > |cells| then old_[|cells|..] else []);
    padded[r := row]
  }

  /** `(values?.length || 1) + 1` on column A: the 1-based number of the
      row after the last dated row, never less than 2. */
  function NextRow(s: Sheet): (n: nat)
    ensures n >= 2
    ensures forall r: nat :: n - 1 <= r ==> Cell(s, r, ColumnA) == ""
    ensures n > 2 ==> Cell(s, n - 2, ColumnA) != ""
  {
    var length := |ReadColumn(s, ColumnA)|;
    (if length == 0 then 1 else length) + 1
  }

  /** `{ success: true }` or `{ success: false, duplicate: true }`. */
  datatype AppendOutcome = Appended | Duplicate

  datatype AppendResult = AppendResult(sheet: Sheet, outcome: AppendOutcome)

  /** `appendToSheet`: a duplicate when the email is already in column D,
      and then the sheet is unchanged; otherwise the entry's nine cells
      are written to columns A to I of the row after the last dated row,
      which is never row 1, and nothing else changes. */
  function AppendToSheet(s: Sheet, e: MirrorEntry, now: string): (res: AppendResult)
    ensures res.outcome == Duplicate <==> e.data.email != "" && InColumn(s, ColumnD, e.data.email)
    ensures res.outcome == Duplicate ==> res.sheet == s
    ensures res.outcome == Appended ==>
      forall r: nat, c: nat :: Cell(res.sheet, r, c) ==
        if r == NextRow(s) - 1 && c < RowWidth then BuildRow(e, now)[c] else Cell(s, r, c)
  {
    EmailScanIff(s, e.data.email);
    if EmailInSheet(s, e.data.email) then AppendResult(s, Duplicate)
    else AppendResult(WriteRow(s, NextRow(s) - 1, BuildRow(e, now)), Appended)
  }

  /** The target row: the row `AppendToSheet` writes when it appends. */
  function AppendTarget(s: Sheet): nat
  {
    NextRow(s) - 1
  }

  /** An append never changes row 1 (the header row) nor any row whose
      date cell is filled: it only writes a row after the last dated one. */
  lemma {:induction false} AppendPreservesHeaderAndDatedRows(s: Sheet, e: MirrorEntry, now: string, r: nat, c: nat)
    requires r == 0 || Cell(s, r, ColumnA) != ""
    ensures Cell(AppendToSheet(s, e, now).sheet, r, c) == Cell(s, r, c)
  {
    assert r != AppendTarget(s);
  }

  /** The rows holding `v` in column D. */
  function RowsWithEmail(s: Sheet, v: string): set<nat>
  {
    set r: nat | r < |s| && Cell(s, r, ColumnD) == v
  }

  /** Appending an entry whose email is not yet in column D leaves
      exactly one row holding it, and appending the same email again is a
      duplicate that changes nothing. */
  lemma {:induction false} AppendNewEmailOnce(s: Sheet, e1: MirrorEntry, e2: MirrorEntry, now1: string, now2: string)
    requires e1.data.email == e2.data.email != ""
    requires !InColumn(s, ColumnD, e1.data.email)
    ensures var first := AppendToSheet(s, e1, now1);
      && first.outcome == Appended
      && RowsWithEmail(first.sheet, e1.data.email) == {AppendTarget(s)}
      && AppendToSheet(first.sheet, e2, now2) == AppendResult(first.sheet, Duplicate)
  {
    var v := e1.data.email;
    var first := AppendToSheet(s, e1, now1);
    var t := AppendTarget(s);
    assert Cell(first.sheet, t, ColumnD) == v;
    forall r: nat | r < |first.sheet| && r != t
      ensures Cell(first.sheet, r, ColumnD) != v
    {
      assert Cell(first.sheet, r, ColumnD) == Cell(s, r, ColumnD);
      if r < |s| {
        assert Cell(s, r, ColumnD) != v;
      }
    }
    assert t < |first.sheet| by {
      assert first.sheet == WriteRow(s, t, BuildRow(e1, now1));
    }
    assert InColumn(first.sheet, ColumnD, v);
  }

  /** Deduplication for any non-empty email: the first append writes a
      row exactly when the email is not yet in column D, after which
      exactly that one new row holds it (when it was there already, the
      rows holding it are unchanged); a second append with the same email
      is always a duplicate that changes nothing. */
  lemma {:induction false} AppendTwiceSameEmail(s: Sheet, e1: MirrorEntry, e2: MirrorEntry, now1: string, now2: string)
    requires e1.data.email == e2.data.email != ""
    ensures var first := AppendToSheet(s, e1, now1);
      && (first.outcome == Appended <==> !InColumn(s, ColumnD, e1.data.email))
      && RowsWithEmail(first.sheet, e1.data.email)
         == (if InColumn(s, ColumnD, e1.data.email) then RowsWithEmail(s, e1.data.email) else {AppendTarget(s)})
      && AppendToSheet(first.sheet, e2, now2) == AppendResult(first.sheet, Duplicate)
  {
    if InColumn(s, ColumnD, e1.data.email) {
      var r :| 0 <= r < |s| && Cell(s, r, ColumnD) == e1.data.email;
    } else {
      AppendNewEmailOnce(s, e1, e2, now1, now2);
    }
  }

  /** The duplicate scan reads all of column D, header row included: once
      the headers are in place, an entry whose email is the literal title
      `Email` is reported as a duplicate and never mirrored. */
  lemma {:induction false} HeaderRowIsScannedForDuplicates(s: Sheet, e: MirrorEntry, now: string)
    requires Cell(s, 0, ColumnD) == Headers[ColumnD]
    requires e.data.email == "Email"
    ensures AppendToSheet(s, e, now) == AppendResult(s, Duplicate)
  {
    assert |s| > 0;
    assert InColumn(s, ColumnD, e.data.email);
  }

  /** Row 1 holds something in columns A to I, which is what the range
      read `A1:I1` of `initializeSheetHeaders` tests. */
  predicate HeadersExist(s: Sheet)
  {
    exists c :: 0 <= c < RowWidth && Cell(s, 0, c) != ""
  }

  datatype InitResult = InitResult(sheet: Sheet, wroteHeaders: bool)

  /** `initializeSheetHeaders(forceUpdate)`: writes the header list to
      `A1:I1` exactly when row 1 is empty there or the update is forced;
      afterwards row 1 is never empty, and no other cell changes. */
  function InitializeSheetHeaders(s: Sheet, forceUpdate: bool): (res: InitResult)
    ensures res.wroteHeaders <==> forceUpdate || !HeadersExist(s)
    ensures res.wroteHeaders ==> forall c :: 0 <= c < RowWidth ==> Cell(res.sheet, 0, c) == Headers[c]
    ensures !res.wroteHeaders ==> res.sheet == s
    ensures forall r: nat, c: nat :: r != 0 || c >= RowWidth ==> Cell(res.sheet, r, c) == Cell(s, r, c)
    ensures HeadersExist(res.sheet)
  {
    if !HeadersExist(s) || forceUpdate then
      var s' := WriteRow(s, 0, Headers);
      assert Cell(s', 0, 0) == "Date";
      InitResult(s', true)
    else InitResult(s, false)
  }

  /** Header initialisation without force is idempotent: a second call
      writes nothing and leaves the sheet as the first call left it. So
      two calls in a row write the header at most once. A forced call
      repeated leaves the same content. */
  lemma {:induction false} InitializeSheetHeadersIdempotent(s: Sheet)
    ensures var first := InitializeSheetHeaders(s, false);
      InitializeSheetHeaders(first.sheet, false) == InitResult(first.sheet, false)
    ensures var forced := InitializeSheetHeaders(s, true);
      forall r: nat, c: nat :: Cell(InitializeSheetHeaders(forced.sheet, true).sheet, r, c) == Cell(forced.sheet, r, c)
  {
  }
}

=== FILE: js_string.dfy ===
/** The few ECMAScript string primitives the sign-up code relies on:
    `String.prototype.trim`, the `\s` regular-expression class and
    `String.prototype.includes`. Strings are sequences of Unicode scalar
    values; none of the whitespace characters below is a surrogate, so the
    UTF-16 view of JavaScript gives the same answers. */
module JsString {

  /** WhiteSpace and LineTerminator code points of ECMAScript. This is both
      the set `trim` removes and the set the regular-expression class `\s`
      matches. */
  predicate IsWhitespace(c: char)
  {
    var n := c as int;
    || n == 0x09 || n == 0x0A || n == 0x0B || n == 0x0C || n == 0x0D
    || n == 0x20 || n == 0xA0 || n == 0x1680
    || (0x2000 <= n <= 0x200A)
    || n == 0x2028 || n == 0x2029 || n == 0x202F || n == 0x205F
    || n == 0x3000 || n == 0xFEFF
  }

  predicate AllWhitespace(s: string)
  {
    forall i :: 0 <= i < |s| ==> IsWhitespace(s[i])
  }

  /** `trimStart`: drops leading whitespace. */
  function TrimStart(s: string): string
    decreases |s|
  {
    if |s| > 0 && IsWhitespace(s[0]) then TrimStart(s[1..]) else s
  }

  /** `trimEnd`: drops trailing whitespace. */
  function TrimEnd(s: string): string
    decreases |s|
  {
    if |s| > 0 && IsWhitespace(s[|s| - 1]) then TrimEnd(s[..|s| - 1]) else s
  }

  /** `s.trim()` */
  function Trim(s: string): string
  {
    TrimEnd(TrimStart(s))
  }

  /** What `trimStart` drops is whitespace and what it keeps is a suffix
      that does not start with whitespace. */
  lemma {:induction false} TrimStartSpec(s: string)
    ensures var r := TrimStart(s);
      && |r| <= |s| && r == s[|s| - |r|..]
      && AllWhitespace(s[..|s| - |r|])
      && (|r| > 0 ==> !IsWhitespace(r[0]))
    decreases |s|
  {
    if |s| > 0 && IsWhitespace(s[0]) {
      TrimStartSpec(s[1..]);
      var r := TrimStart(s);
      assert s[1..][..|s| - 1 - |r|] == s[1..|s| - |r|];
    }
  }

  /** What `trimEnd` drops is whitespace and what it keeps is a prefix
      that does not end with whitespace. */
  lemma {:induction false} TrimEndSpec(s: string)
    ensures var r := TrimEnd(s);
      && |r| <= |s| && r == s[..|r|]
      && AllWhitespace(s[|r|..])
      && (|r| > 0 ==> !IsWhitespace(r[|r| - 1]))
    decreases |s|
  {
    if |s| > 0 && IsWhitespace(s[|s| - 1]) {
      TrimEndSpec(s[..|s| - 1]);
      var r := TrimEnd(s);
      assert s[..|s| - 1][|r|..] == s[|r|..|s| - 1];
    }
  }

  /** A string whose trimmed form is `''`, i.e. falsy after `trim()`. */
  predicate IsBlank(s: string)
  {
    Trim(s) == ""
  }

  /** `!s.trim()` holds exactly when every character of `s` is whitespace;
      in particular the empty string and whitespace-only strings are blank. */
  lemma {:induction false} BlankIffAllWhitespace(s: string)
    ensures IsBlank(s) <==> AllWhitespace(s)
  {
    var t := TrimStart(s);
    TrimStartSpec(s);
    TrimEndSpec(t);
    if AllWhitespace(s) {
      assert |t| == 0;
    } else {
      var i :| 0 <= i < |s| && !IsWhitespace(s[i]);
      assert i >= |s| - |t|;
      assert t[i - (|s| - |t|)] == s[i];
      assert t[0..] == t;
      assert !AllWhitespace(t);
      assert |TrimEnd(t)| > 0;
    }
  }

  /** `s.startsWith(t)` */
  predicate StartsWith(s: string, t: string)
  {
    |t| <= |s| && s[..|t|] == t
  }

  /** `s.includes(t)`, written as the scan a naive substring search does. */
  predicate Includes(s: string, t: string)
    decreases |s|
  {
    StartsWith(s, t) || (|s| > 0 && Includes(s[1..], t))
  }

  /** `t` occurs in `s` starting at offset `i`. */
  predicate OccursAt(s: string, t: string, i: int)
  {
    0 <= i <= |s| - |t| && s[i..i + |t|] == t
  }

  /** `includes` finds `t` exactly when `t` occurs at some offset of `s`. */
  lemma {:induction false} IncludesIffOccurs(s: string, t: string)
    ensures Includes(s, t) <==> exists i :: OccursAt(s, t, i)
    decreases |s|
  {
    if StartsWith(s, t) {
      assert OccursAt(s, t, 0);
    } else if |s| == 0 {
      assert forall i :: !OccursAt(s, t, i);
    } else {
      IncludesIffOccurs(s[1..], t);
      if Includes(s[1..], t) {
        var i :| OccursAt(s[1..], t, i);
        assert s[1..][i..i + |t|] == s[i + 1..i + 1 + |t|];
        assert OccursAt(s, t, i + 1);
      } else {
        forall i | 0 < i <= |s| - |t|
          ensures !OccursAt(s, t, i)
        {
          assert s[1..][i - 1..i - 1 + |t|] == s[i..i + |t|];
          assert !OccursAt(s[1..], t, i - 1);
        }
        assert !OccursAt(s, t, 0);
      }
    }
  }
}

=== FILE: phoning_types.dfy ===
/** The sign-up record `PhoningFormData` (src/types/phoning.ts:1-10). */
module PhoningTypes {

  /** The string union `'1-2h' | '3-5h' | '5h+' | ''`. */
  type DisponibiliteCode = s: string | s == "1-2h" || s == "3-5h" || s == "5h+" || s == ""
    witness ""

  /** The string union `'deja_fait' | 'jamais_mais_motive' | ''`. */
  type ExperienceCode = s: string | s == "deja_fait" || s == "jamais_mais_motive" || s == ""
    witness ""

  /** One volunteer sign-up. The JSON keys are the field names, with
      `codePostal` standing for `code_postal`. */
  datatype PhoningFormData = PhoningFormData(
    prenom: string,
    nom: string,
    mobile: string,
    email: string,
    ville: string,
    codePostal: string,
    disponibilite: DisponibiliteCode,
    experience: ExperienceCode)

  /** The form's initial state: every field empty. */
  const InitialFormData := PhoningFormData("", "", "", "", "", "", "", "")

  /** The eight fields, in the order the form lays them out. */
  datatype Field = Prenom | Nom | Mobile | Email | Ville | CodePostal | Disponibilite | Experience

  /** The six free-text fields (the two others are chosen from buttons). */
  predicate IsTextField(f: Field)
  {
    !f.Disponibilite? && !f.Experience?
  }

  /** The string held in field `f`. */
  function FieldValue(d: PhoningFormData, f: Field): string
  {
    match f
    case Prenom => d.prenom
    case Nom => d.nom
    case Mobile => d.mobile
    case Email => d.email
    case Ville => d.ville
    case CodePostal => d.codePostal
    case Disponibilite => d.disponibilite
    case Experience => d.experience
  }
}

=== FILE: primary_store.dfy ===
/** The primary table `phoning_temporaire` seen from the submit route
    (src/app/api/submit/route.ts:31-45): an insert either returns the new
    row's `id` and `created_at` or a `{ code, message }` error. The table
    carries a uniqueness constraint on `email`; this module is a model of
    that constraint, against which the route's duplicate branch is read. */
module PrimaryStore {
  import opened Common
  import opened PhoningTypes

  /** The error object of the store client; either part may be absent. */
  datatype StoreError = StoreError(code: Option<string>, message: Option<string>)

  /** The outcome of `insert([...]).select().single()`: the generated row,
      an error object, or an exception thrown by the call itself. */
  datatype InsertResult =
    | Inserted(id: string, createdAt: string)
    | InsertFailed(error: StoreError)
    | InsertThrew

  datatype StoredRow = StoredRow(id: string, data: PhoningFormData, createdAt: string)

  type Table = seq<StoredRow>

  /** The uniqueness constraint: no two rows share an email. */
  predicate EmailsUnique(t: Table)
  {
    forall i, j :: 0 <= i < j < |t| ==> t[i].data.email != t[j].data.email
  }

  predicate HasEmail(t: Table, email: string)
  {
    exists i :: 0 <= i < |t| && t[i].data.email == email
  }

  /** The error a unique-constraint violation reports: SQLSTATE 23505. */
  const UniqueViolation := StoreError(Some("23505"), Some("duplicate key value violates unique constraint"))

  datatype StoreStep = StoreStep(result: InsertResult, table: Table)

  /** An insert into the constrained table: refused with a 23505 error
      when the email is taken, otherwise the row is added with the given
      fresh id. The constraint holds after the insert whenever it held
      before. */
  function Insert(t: Table, data: PhoningFormData, createdAt: string, freshId: string): (step: StoreStep)
    ensures step.result.Inserted? <==> !HasEmail(t, data.email)
    ensures step.result.Inserted? ==>
      step.result == Inserted(freshId, createdAt) && step.table == t + [StoredRow(freshId, data, createdAt)]
    ensures step.result.InsertFailed? ==> step.result.error == UniqueViolation && step.table == t
    ensures EmailsUnique(t) ==> EmailsUnique(step.table)
    ensures HasEmail(step.table, data.email)
  {
    if HasEmail(t, data.email) then StoreStep(InsertFailed(UniqueViolation), t)
    else
      var t' := t + [StoredRow(freshId, data, createdAt)];
      assert t'[|t|].data.email == data.email;
      StoreStep(Inserted(freshId, createdAt), t')
  }
}

=== FILE: scenarios.dfy ===
/** Properties that span the form, the route, the store and the mirror. */
module Scenarios {
  import opened Common
  import opened JsString
  import opened EmailRegex
  import opened PhoningTypes
  import opened Formulaire
  import opened PrimaryStore
  import opened GoogleSheets
  import opened SubmitRoute

  /** Every record the form accepts passes the server's check: the server
      re-validates a subset of the client's rules. */
  lemma {:induction false} ServerCheckLooserThanClient(d: PhoningFormData)
    requires ValidateForm(d).valid
    ensures ServerValidate(d).Accepted?
  {
    ValidateFormAcceptsExactlyValid(d);
    assert FieldOk(d, Prenom) && FieldOk(d, Nom) && FieldOk(d, Mobile) && FieldOk(d, Email);
    assert FieldOk(d, Disponibilite) && FieldOk(d, Experience);
    assert IsBlank("");
  }

  /** A string whose first character is not whitespace is not blank. */
  lemma VisibleNotBlank(s: string)
    requires |s| > 0 && !IsWhitespace(s[0])
    ensures !IsBlank(s)
  {
    BlankIffAllWhitespace(s);
  }

  /** The inclusion is strict. A whitespace-only prenom passes the
      server, which does not trim, while the form rejects it first. */
  lemma {:induction false} ServerAcceptsWhitespacePrenom(d: PhoningFormData)
    requires d.prenom != "" && AllWhitespace(d.prenom)
    requires d.nom != "" && d.email != "" && d.mobile != "" && d.disponibilite != "" && d.experience != ""
    ensures ServerValidate(d).Accepted?
    ensures ValidateForm(d) == Validation(false, Some("field-prenom"), Some("Le prenom est obligatoire"))
  {
    BlankIffAllWhitespace(d.prenom);
  }

  /** Any non-empty email the pattern rejects (no `@`, a second `@`,
      whitespace, no inner dot) passes the server, while the form rejects
      it on the email field: with the format message, or with the
      required message when it is whitespace only. */
  lemma {:induction false} ServerAcceptsMalformedEmail(d: PhoningFormData)
    requires FieldOk(d, Prenom) && FieldOk(d, Nom) && FieldOk(d, Mobile)
    requires d.email != "" && !TestEmail(d.email)
    requires d.disponibilite != "" && d.experience != ""
    ensures ServerValidate(d).Accepted?
    ensures ValidateForm(d).fieldId == Some("field-email")
    ensures !IsBlank(d.email) ==> ValidateForm(d).message == Some(EmailInvalidMessage)
    ensures IsBlank(d.email) ==> ValidateForm(d).message == Some(EmailRequiredMessage)
  {
    assert IsBlank("");
  }

  /** An otherwise valid record with an empty ville or code postal passes
      the server, while the form rejects it at that field. */
  lemma {:induction false} ServerAcceptsEmptyVilleOrCodePostal(d: PhoningFormData)
    requires FieldOk(d, Prenom) && FieldOk(d, Nom) && FieldOk(d, Mobile) && FieldOk(d, Email)
    requires d.ville == "" || d.codePostal == ""
    requires d.disponibilite != "" && d.experience != ""
    ensures ServerValidate(d).Accepted?
    ensures !ValidateForm(d).valid
    ensures ValidateForm(d).fieldId == Some(if IsBlank(d.ville) then "field-ville" else "field-code_postal")
  {
    assert IsBlank("");
  }

  /** Any record whose text fields start with a visible character and
      whose email is `local@host.tld` built from three runs, with both
      choices made, is accepted by the form. */
  lemma {:induction false} WellFormedRecordAccepted(d: PhoningFormData, local: string, host: string, tld: string)
    requires forall f :: IsTextField(f) ==> |FieldValue(d, f)| > 0 && !IsWhitespace(FieldValue(d, f)[0])
    requires IsEmailRun(local) && IsEmailRun(host) && IsEmailRun(tld)
    requires d.email == local + "@" + host + "." + tld
    requires d.disponibilite != "" && d.experience != ""
    ensures ValidateForm(d).valid
  {
    EmailOfRunsAccepted(local, host, tld);
    forall f | IsTextField(f)
      ensures !IsBlank(FieldValue(d, f))
    {
      VisibleNotBlank(FieldValue(d, f));
    }
    assert !IsBlank(FieldValue(d, Prenom)) && !IsBlank(FieldValue(d, Nom)) && !IsBlank(FieldValue(d, Mobile));
    assert !IsBlank(FieldValue(d, Email)) && !IsBlank(FieldValue(d, Ville)) && !IsBlank(FieldValue(d, CodePostal));
  }

  /** The status a reply gives the form's `fetch`. */
  function AsFetchResult(r: Reply): FetchResult
  {
    match r.body
    case SuccessId(_) => Answered(r.status, None)
    case ErrorMessage(text) => Answered(r.status, Some(text))
  }

  /** One full submission from the form: when the form is valid the
      request carries the form data, the server never answers 400, and the
      form ends up submitted exactly when the store inserted the row;
      otherwise the error shown is the server's message. */
  lemma {:induction false} FormSubmissionRoundTrip(s: FormState, now: string, insert: InsertResult, mirror: Mirror)
    requires ValidateForm(s.formData).valid
    ensures var step := HandleSubmit(s);
      && step.request == Some(s.formData)
      && var r := Post(Json(s.formData), now, insert, mirror);
      && r.reply.status != 400
      && var s' := FinishSubmit(step.state, AsFetchResult(r.reply));
      && !s'.isSubmitting
      && (s'.isSubmitted <==> s.isSubmitted || insert.Inserted?)
      && (!insert.Inserted? ==> s'.error.Some? && s'.error.value in {DuplicateMessage, StoreFailureMessage, UnexpectedMessage})
  {
    ServerCheckLooserThanClient(s.formData);
  }

  /** Two submissions with the same email against the constrained table:
      the first is answered 200 with its id, the second 409, whatever the
      two records' other fields. */
  lemma TwoSubmissionsSameEmail(t: Table, d1: PhoningFormData, d2: PhoningFormData,
                                now1: string, now2: string, id1: string, id2: string, m1: Mirror, m2: Mirror)
    requires ServerValidate(d1).Accepted? && ServerValidate(d2).Accepted?
    requires d1.email == d2.email && !HasEmail(t, d1.email)
    ensures var first := Insert(t, d1, now1, id1);
      && Post(Json(d1), now1, first.result, m1).reply == Reply(200, SuccessId(id1))
      && var second := Insert(first.table, d2, now2, id2);
      && Post(Json(d2), now2, second.result, m2).reply == Reply(409, ErrorMessage(DuplicateMessage))
      && second.table == first.table
  {
  }

  const Alice := PhoningFormData("Alice", "Martin", "0612345678", "alice@example.com", "Paris", "75001", "3-5h", "deja_fait")

  /** Alice's row as the mirror writes it, with the store's timestamp. */
  function AliceRow(createdAt: string): Row
  {
    [createdAt, "Alice", "Martin", "alice@example.com", "0612345678", "Paris", "75001", "3-5h/semaine", "Deja fait"]
  }

  /** The mirror steps on an empty spreadsheet: the headers are written to
      row 1, then Alice's row lands in row 2. */
  lemma AliceMirrorSteps(now: string, createdAt: string)
    requires createdAt != ""
    ensures InitializeSheetHeaders([], false) == InitResult([Headers], true)
    ensures AppendToSheet([Headers], MirrorEntry(Alice, Some("id-1"), Some(createdAt)), now)
      == AppendResult([Headers, AliceRow(createdAt)], Appended)
  {
    assert WriteRow([], 0, Headers) == [Headers] by {
      var padded: Sheet := [] + seq(1, _ => []);
      assert padded == [[]];
      assert Headers + [] == Headers;
    }
    var e := MirrorEntry(Alice, Some("id-1"), Some(createdAt));
    var s1: Sheet := [Headers];
    assert BuildRow(e, now) == AliceRow(createdAt);
    assert Cell(s1, 0, ColumnD) == "Email";
    assert !InColumn(s1, ColumnD, Alice.email);
    assert Cell(s1, 0, ColumnA) == "Date";
    assert ColumnLength(s1, ColumnA) == 1;
    assert NextRow(s1) == 2;
    assert WriteRow(s1, 1, AliceRow(createdAt)) == [Headers, AliceRow(createdAt)] by {
      var padded: Sheet := s1 + seq(1, _ => []);
      assert padded == [Headers, []];
      assert AliceRow(createdAt) + [] == AliceRow(createdAt);
    }
  }

  /** The end-to-end example: the route answers 200 with the generated
      id, and an empty spreadsheet ends up with the header row and one
      data row labelled `3-5h/semaine` and `Deja fait`. */
  lemma AliceEndToEnd(now: string, createdAt: string)
    requires createdAt != ""
    ensures Post(Json(Alice), now, Inserted("id-1", createdAt), Reachable([]))
      == PostResult(Reply(200, SuccessId("id-1")), Some(InsertPayload(Alice, now)),
                    Reachable([Headers, AliceRow(createdAt)]))
    ensures AliceRow(createdAt)[7] == "3-5h/semaine" && AliceRow(createdAt)[8] == "Deja fait"
  {
    AliceMirrorSteps(now, createdAt);
  }
}

=== FILE: submit_route.dfy ===
/** The submission endpoint `POST /api/submit`
    (src/app/api/submit/route.ts:11-86) as a function from the request,
    the store's answer and the mirror to the HTTP reply. */
module SubmitRoute {
  import opened Common
  import opened JsString
  import opened PhoningTypes
  import opened PrimaryStore
  import opened GoogleSheets

  /** The request body: a parsed record, or a body `request.json()`
      cannot parse. */
  datatype RequestBody = Json(data: PhoningFormData) | Unparseable

  datatype ReplyBody = SuccessId(id: string) | ErrorMessage(error: string)

  datatype Reply = Reply(status: int, body: ReplyBody)

  /** The object passed to `insert`: the record stamped with the time of
      the request. */
  datatype InsertPayload = InsertPayload(data: PhoningFormData, createdAt: string)

  /** The spreadsheet as the route sees it: reachable with its current
      content, or unreachable (credentials, network or API failure), in
      which case the sync throws and the route catches it. */
  datatype Mirror = Reachable(sheet: Sheet) | Unreachable

  datatype PostResult = PostResult(reply: Reply, insertAttempt: Option<InsertPayload>, mirror: Mirror)

  const MissingIdentityMessage := "Prenom, nom, email et mobile sont obligatoires"
  const MissingChoicesMessage := "Disponibilite et experience sont obligatoires"
  const DuplicateMessage := "Cette adresse email a deja ete utilisee."
  const StoreFailureMessage := "Erreur lors de l'enregistrement"
  const UnexpectedMessage := "Une erreur est survenue"

  datatype ServerCheck = Accepted | Refused(message: string)

  /** The server's two presence checks, in order. A string field is
      missing when it is falsy, i.e. `''`: there is no trimming, and
      ville, code postal and the email's format are not looked at. */
  function ServerValidate(d: PhoningFormData): (c: ServerCheck)
    ensures c.Accepted? <==>
      d.prenom != "" && d.nom != "" && d.email != "" && d.mobile != ""
      && d.disponibilite != "" && d.experience != ""
    ensures c.Refused? ==>
      (c.message == MissingIdentityMessage <==> d.prenom == "" || d.nom == "" || d.email == "" || d.mobile == "")
    ensures c.Refused? ==> c.message in {MissingIdentityMessage, MissingChoicesMessage}
  {
    if d.prenom == "" || d.nom == "" || d.email == "" || d.mobile == "" then
      Refused(MissingIdentityMessage)
    else if d.disponibilite == "" || d.experience == "" then
      Refused(MissingChoicesMessage)
    else Accepted
  }

  /** The duplicate test on a store error: code `'23505'`, or a message
      containing `unique` or `duplicate` (case-sensitive). */
  predicate IsDuplicateSignal(e: StoreError)
  {
    || e.code == Some("23505")
    || (e.message.Some? && (Includes(e.message.value, "unique") || Includes(e.message.value, "duplicate")))
  }

  /** The reply to a store error: 409 for a duplicate, 500 otherwise. */
  function StoreErrorReply(e: StoreError): (r: Reply)
    ensures r.status == 409 <==> IsDuplicateSignal(e)
    ensures r.status == 409 || r.status == 500
  {
    if IsDuplicateSignal(e) then Reply(409, ErrorMessage(DuplicateMessage))
    else Reply(500, ErrorMessage(StoreFailureMessage))
  }

  /** The guarded sync: header initialisation without force, then the
      append. Its own outcome (appended or duplicate) is discarded, and an
      unreachable sheet stays as it was. A reachable sheet ends with row 1
      filled and a non-empty email present in column D, appended now or
      already there. */
  function SyncMirror(m: Mirror, e: MirrorEntry, now: string): (m': Mirror)
    ensures m.Unreachable? ==> m' == Unreachable
    ensures m.Reachable? ==> m'.Reachable? && HeadersExist(m'.sheet)
    ensures m.Reachable? && e.data.email != "" ==> InColumn(m'.sheet, ColumnD, e.data.email)
  {
    match m
    case Unreachable => Unreachable
    case Reachable(s) =>
      var init := InitializeSheetHeaders(s, false);
      var app := AppendToSheet(init.sheet, e, now);
      assert HeadersExist(app.sheet) by {
        var c :| 0 <= c < RowWidth && Cell(init.sheet, 0, c) != "";
        AppendPreservesHeaderAndDatedRows(init.sheet, e, now, 0, c);
      }
      assert app.outcome == Appended ==> Cell(app.sheet, NextRow(init.sheet) - 1, ColumnD) == e.data.email;
      Reachable(app.sheet)
  }

  /** `POST`. `now` is the request's clock reading, `insert` what the store
      answers if asked, `mirror` the spreadsheet. */
  function Post(body: RequestBody, now: string, insert: InsertResult, mirror: Mirror): (r: PostResult)
    ensures r.reply.status in {200, 400, 409, 500}
    ensures r.reply.status == 400 <==> body.Json? && ServerValidate(body.data).Refused?
    ensures r.insertAttempt.Some? <==> body.Json? && ServerValidate(body.data).Accepted?
    ensures r.insertAttempt.Some? ==> r.insertAttempt.value == InsertPayload(body.data, now)
    ensures r.reply.status == 200 <==> r.insertAttempt.Some? && insert.Inserted?
    ensures r.reply.status == 200 ==> r.reply.body == SuccessId(insert.id)
    ensures r.reply.status == 409 <==>
      r.insertAttempt.Some? && insert.InsertFailed? && IsDuplicateSignal(insert.error)
    ensures r.reply.status != 200 ==> r.mirror == mirror
  {
    match body
    case Unparseable => PostResult(Reply(500, ErrorMessage(UnexpectedMessage)), None, mirror)
    case Json(d) =>
      match ServerValidate(d)
      case Refused(message) => PostResult(Reply(400, ErrorMessage(message)), None, mirror)
      case Accepted =>
        var payload := Some(InsertPayload(d, now));
        match insert
        case InsertThrew => PostResult(Reply(500, ErrorMessage(UnexpectedMessage)), payload, mirror)
        case InsertFailed(e) => PostResult(StoreErrorReply(e), payload, mirror)
        case Inserted(id, createdAt) =>
          var entry := MirrorEntry(d, Some(id), Some(createdAt));
          PostResult(Reply(200, SuccessId(id)), payload, SyncMirror(mirror, entry, now))
  }

  /** The mirror never decides the reply: whatever the spreadsheet's state
      or reachability, the reply and the insert attempt are the same. */
  lemma PostReplyIgnoresMirror(body: RequestBody, now: string, insert: InsertResult, m1: Mirror, m2: Mirror)
    ensures Post(body, now, insert, m1).reply == Post(body, now, insert, m2).reply
    ensures Post(body, now, insert, m1).insertAttempt == Post(body, now, insert, m2).insertAttempt
  {
  }

  /** A record lacking prenom, nom, email or mobile gets 400 with the
      first message and no insert, whatever the other fields hold; the
      first check takes precedence over the second. */
  lemma PostMissingIdentity(d: PhoningFormData, now: string, insert: InsertResult, mirror: Mirror)
    requires d.prenom == "" || d.nom == "" || d.email == "" || d.mobile == ""
    ensures Post(Json(d), now, insert, mirror)
      == PostResult(Reply(400, ErrorMessage(MissingIdentityMessage)), None, mirror)
  {
  }

  /** With the four identity fields present, a missing availability or
      experience gets 400 with the second message and no insert. */
  lemma PostMissingChoices(d: PhoningFormData, now: string, insert: InsertResult, mirror: Mirror)
    requires d.prenom != "" && d.nom != "" && d.email != "" && d.mobile != ""
    requires d.disponibilite == "" || d.experience == ""
    ensures Post(Json(d), now, insert, mirror)
      == PostResult(Reply(400, ErrorMessage(MissingChoicesMessage)), None, mirror)
  {
  }

  /** The server check ignores ville and code postal entirely and looks
      at the email only for emptiness: changing those to anything (the
      email to any non-empty string, however malformed) never changes its
      verdict. */
  lemma ServerIgnoresVilleCodePostalAndEmailFormat(d: PhoningFormData, ville: string, codePostal: string, email: string)
    requires (d.email == "") == (email == "")
    ensures ServerValidate(d.(ville := ville, codePostal := codePostal, email := email)) == ServerValidate(d)
  {
  }

  /** Store errors: 409 with the duplicate message exactly for the
      duplicate signals, 500 with the generic message for every other
      error. */
  lemma PostStoreErrorClassification(d: PhoningFormData, now: string, e: StoreError, mirror: Mirror)
    requires ServerValidate(d).Accepted?
    ensures var r := Post(Json(d), now, InsertFailed(e), mirror).reply;
      && (IsDuplicateSignal(e) ==> r == Reply(409, ErrorMessage(DuplicateMessage)))
      && (!IsDuplicateSignal(e) ==> r == Reply(500, ErrorMessage(StoreFailureMessage)))
  {
  }

  /** Code 23505 alone is a duplicate signal, and so is a message that
      mentions `duplicate` without a code; the match is case-sensitive. */
  lemma DuplicateSignalExamples()
    ensures IsDuplicateSignal(StoreError(Some("23505"), None))
    ensures IsDuplicateSignal(StoreError(None, Some("a duplicate key")))
    ensures !IsDuplicateSignal(StoreError(Some("23503"), Some("Unique")))
  {
    assert StartsWith("a duplicate key"[2..], "duplicate");
    assert Includes("a duplicate key"[1..][1..], "duplicate");
    assert Includes("a duplicate key"[1..], "duplicate");
    IncludesIffOccurs("Unique", "unique");
    IncludesIffOccurs("Unique", "duplicate");
    assert "Unique"[0..6] == "Unique";
  }

  /** A successful insert answers 200 with the store's id even when the
      spreadsheet is unreachable. */
  lemma PostSucceedsWithoutMirror(d: PhoningFormData, now: string, id: string, createdAt: string)
    requires ServerValidate(d).Accepted?
    ensures Post(Json(d), now, Inserted(id, createdAt), Unreachable)
      == PostResult(Reply(200, SuccessId(id)), Some(InsertPayload(d, now)), Unreachable)
  {
  }

  /** An exception outside the sync block (here the body failing to
      parse) becomes the catch-all 500, before any insert. */
  lemma PostUnparseableBody(now: string, insert: InsertResult, mirror: Mirror)
    ensures Post(Unparseable, now, insert, mirror)
      == PostResult(Reply(500, ErrorMessage(UnexpectedMessage)), None, mirror)
  {
  }

  /** Mirroring the same accepted record twice changes the sheet once:
      the second header initialisation writes nothing and the second
      append is a duplicate. */
  lemma {:induction false} SyncMirrorIdempotent(s: Sheet, e: MirrorEntry, now1: string, now2: string)
    requires e.data.email != ""
    ensures SyncMirror(SyncMirror(Reachable(s), e, now1), e, now2) == SyncMirror(Reachable(s), e, now1)
  {
    var init := InitializeSheetHeaders(s, false);
    var app := AppendToSheet(init.sheet, e, now1);
    var s1 := app.sheet;
    assert HeadersExist(s1) by {
      var c :| 0 <= c < RowWidth && Cell(init.sheet, 0, c) != "";
      assert Cell(s1, 0, c) == Cell(init.sheet, 0, c) by {
        AppendPreservesHeaderAndDatedRows(init.sheet, e, now1, 0, c);
      }
    }
    assert InitializeSheetHeaders(s1, false).sheet == s1;
    assert InColumn(s1, ColumnD, e.data.email) by {
      if app.outcome == Appended {
        var t := NextRow(init.sheet) - 1;
        assert Cell(s1, t, ColumnD) == e.data.email;
      }
    }
  }

  /** After a successful submission with a reachable spreadsheet, row 1
      holds something in A to I and the submitted email is in column D:
      either appended now or already there. */
  lemma {:induction false} PostMirrorsAcceptedRecord(d: PhoningFormData, now: string, id: string, createdAt: string, s: Sheet)
    requires ServerValidate(d).Accepted?
    ensures var r := Post(Json(d), now, Inserted(id, createdAt), Reachable(s));
      && r.mirror.Reachable?
      && HeadersExist(r.mirror.sheet)
      && InColumn(r.mirror.sheet, ColumnD, d.email)
  {
    var e := MirrorEntry(d, Some(id), Some(createdAt));
    var init := InitializeSheetHeaders(s, false);
    var app := AppendToSheet(init.sheet, e, now);
    assert HeadersExist(app.sheet) by {
      var c :| 0 <= c < RowWidth && Cell(init.sheet, 0, c) != "";
      AppendPreservesHeaderAndDatedRows(init.sheet, e, now, 0, c);
    }
    if app.outcome == Appended {
      var t := NextRow(init.sheet) - 1;
      assert Cell(app.sheet, t, ColumnD) == d.email;
    }
  }
}
